=== FILE: README.md ===
# Gym booking back end: request-handling rules in Dafny

This project models the request-handling core of a gym back end (an
Express/MongoDB service in JavaScript): the appointment registration rule,
the account handlers of the user routes, the administrator's password
reset, the sign-up validator and the CORS origin decision. MongoDB
collections become Dafny sequences held by classes (`Appointments.Ledger`,
`Users.UserStore`), whose methods change them the way the handlers'
`save()` calls and field assignments do; bcrypt becomes an abstract digest
(`Bcrypt`); the validator library's `isEmail` and the `is-empty` helper
become function parameters.

Modules, one per source file or component:

- `Common` (common.dfy): optional body fields, JavaScript truthiness, and
  `FindOne`, the "first document in natural order that matches" lookup.
- `Bcrypt` (bcrypt.dfy): `Hash(password, salt)` and `Compare` over the
  key bcryptjs derives from a password (its UTF-8 bytes and a zero byte,
  repeated over 72 bytes); the salt is the randomness bcrypt draws, passed
  in as a parameter.
- `SignUpValidation` (validate_signup.dfy): `validateRegisterInput`, with a
  per-field reference definition of the messages it records.
- `Cors` (cors.dfy): the origin list and the `origin` decision.
- `Appointments` (appointments.dfy): the appointment ledger and
  `POST /register-appointment`.
- `Users` (users.dfy): the users collection and `POST /signup`,
  `POST /reset-password`, `PUT /update-user-info`.
- `Admin` (admin.dfy): `POST /reset-user-password`.

The booking rule the code enforces is "at most one Confirmed appointment
per (trainer, date, hour)". Run one request at a time, registration keeps the rule
(`Ledger.RegisterAppointment`, `ReplayKeepsNoDoubleBooking`), and under the
rule every slot has at most one Confirmed record
(`AtMostOneConfirmedPerSlot`).

## Model

| member | source | states |
|---|---|---|
| `Common.FindOne` | routes/user.js:149-155 | `findOne`: the result is the first position whose document satisfies the filter; no result exactly when no document does |
| `Bcrypt.Hash` | routes/user.js:41-45 | a digest made from a password is accepted by `Compare` for that password, and for exactly the passwords with the same 72-byte key |
| `Bcrypt.LongPasswordIgnoresSuffix` | routes/user.js:74-84 | once a password's UTF-8 encoding reaches 72 bytes, anything appended to it is accepted by the original's digest |
| `Bcrypt.SameFirstBytesCompare` | routes/user.js:74-84 | two passwords of at least 72 bytes that agree on their first 72 bytes are each accepted by the other's digest |
| `SignUpValidation.RecordedAt` | validators/validateSignUp.js:12-43 | the two checks of one field touch only that field's key; they leave there the field's reference message: "required" for an empty value, else the length/format message, else nothing |
| `SignUpValidation.ErrorsPerField` | validators/validateSignUp.js:12-48 | the overwriting sequence of checks gives the per-field reference messages for all four fields; the errors object is empty exactly when every field passes |
| `SignUpValidation.ValidateRegisterInput` | validators/validateSignUp.js:4-49 | returns the normalised body and the errors object the overwriting checks build; each key is present exactly when its field has a message, with that message; so keys are only name/username/email/password and each depends only on its own field; `isValid` holds iff the errors object is empty, iff the form is acceptable |
| `SignUpValidation.AcceptedFormBounds` | validators/validateSignUp.js:12-43 | an accepted form has name 2-30, username 3-30 and password 6-30 characters and an email passing `isEmail`; each of the four came from the body unchanged |
| `SignUpValidation.MissingFieldIsRequired` | validators/validateSignUp.js:7-43 | a body field that is missing, empty or blank ends, in the errors object the overwriting checks build, with that field's own "field is required" message, whatever its length or format check recorded first; the form is rejected |
| `Cors.AllowedOrigins` | config/allowedOrigins.js:1-9 | the exported list starts with the five declared origins; it grows by one entry when NODE_ENV is set; its membership never changes |
| `Cors.DecideOrigin` | config/corsOptions.js:4-13 | allow iff the origin is one of the declared origins, or the origin is missing/empty and NODE_ENV is exactly `development`; every other call is rejected with "Not allowed by CORS" |
| `Cors.ListedOriginAllowedInEveryEnvironment` | config/corsOptions.js:6-7 | list membership is checked first, so a listed origin is allowed whatever NODE_ENV is |
| `Cors.MissingOriginOnlyInDevelopment` | config/corsOptions.js:8-9 | a missing or empty origin is allowed exactly when NODE_ENV is `development` |
| `Cors.OutsideDevelopmentOnlyListed` | config/corsOptions.js:6-11 | outside development the decision is list membership alone |
| `Appointments.Ledger.RegisterAppointment` | routes/user.js:144-178 | Conflict iff a Confirmed record already holds (trainerId, date, time), and then the ledger is unchanged; otherwise exactly one record (trainerId, caller, date, time, Confirmed) is appended and returned; no-double-booking is preserved |
| `Appointments.RegistrationKeepsNoDoubleBooking` | routes/user.js:149-171 | one registration keeps "no two Confirmed records share a slot" |
| `Appointments.ReplayKeepsNoDoubleBooking` | routes/user.js:149-171 | any sequence of registrations, handled one at a time, keeps the rule |
| `Appointments.FreeSlotCountsZero` | routes/user.js:149-155 | a slot has no Confirmed record exactly when the handler's lookup finds none |
| `Appointments.AtMostOneConfirmedPerSlot` | routes/user.js:149-171 | under the rule, every slot is held by at most one Confirmed record |
| `Appointments.SequentialRegistrationsNeverDoubleBook` | routes/user.js:149-171 | from an empty collection, any sequence of registrations leaves each slot with at most one Confirmed record |
| `Appointments.CancelledRecordDoesNotBlock` | routes/user.js:149-154 | a Cancelled record for the slot changes nothing about whether the slot is taken: only Confirmed records block |
| `Appointments.SecondRegistrationConflicts` | routes/user.js:149-160 | after one registration for a slot, the slot is taken, so any later request for it by anyone conflicts |
| `Users.MergeIdempotent` | routes/user.js:130-133 | sending the same profile changes a second time changes nothing |
| `Users.MergeKeepsRecordIff` | routes/user.js:130-133 | an update leaves the record as it was exactly when every truthy field of the request already equals the stored value |
| `Users.ReplaceKeepsUniqueUsernames` | routes/user.js:121-133 | replacing one user by one whose username no other user holds keeps usernames unique |
| `Users.ProfileUpdateCanShareEmail` | routes/user.js:121-133 | the profile update checks usernames only: with two users of distinct emails, the second can take the first's email, so email uniqueness (kept by sign-up) is lost |
| `Users.UserStore.SignUp` | routes/user.js:11-59 | invalid input is answered with the full errors object before any lookup, store unchanged; then email taken wins over username taken, store unchanged; otherwise exactly one customer is appended with password Hash(password), which `Compare` accepts; unique usernames and unique emails are kept |
| `Users.UserStore.ResetPassword` | routes/user.js:61-92 | unknown caller: not found; missing old password: server error; old password not matching: 401; otherwise only the caller's password changes, to Hash(newPassword), which `Compare` then accepts; nothing else changes |
| `Users.UserStore.UpdateUserInfo` | routes/user.js:111-142 | unknown caller: not found; a requested username held by any user, the caller included: rejected, store unchanged; otherwise only the caller's record changes, to the merge; unique usernames are kept |
| `Admin.FindByUsernameOrEmail` | routes/admin.js:29 | the first user, in natural order, whose username or email equals the given value; none exactly when no user matches |
| `Admin.ResetUserPassword` | routes/admin.js:13-48 | neither username nor email truthy: rejected, store unchanged; no matching user: not found, store unchanged; otherwise only the first match's password changes, to Hash(newPassword); all other users and fields stay the same |

## Left out

- Per-slot capacity, session balances, membership validity windows, cancellation and availability resolution: no handler in the code reads or enforces them (`capacity` and `cancelTime` are declared schema fields only).
- The check-then-act race in register-appointment: the lookup and the save are two separate database calls, so two concurrent requests for one slot can both succeed. The model runs requests one at a time, and its no-double-booking results hold only under that assumption.
- Express routing, the MongoDB connection and HTTP status codes: outcomes are the `Registration` and `Reply` datatypes, with the status noted beside each constructor.
- The token and role middleware (`verifyJWT`, `authenticateToken`, `isAdmin`): the caller's id is a trusted parameter, and the admin check is assumed to have passed.
- Bcrypt.Hash: the Blowfish-based hash itself and the cost factor are not modelled. A digest holds its salt and the 72-byte key bcryptjs derives from the password. So passwords with the same key compare equal, as in bcryptjs. Collisions of the hash between different keys are not modelled.
- `Validator.isEmail` and the `is-empty` helper are not part of this model: they are the parameters `isEmail` and `isBlank`. A missing (undefined or null) field is taken as empty, which is what `is-empty` does with such values.
- `Validator.isLength` counts characters and does not count the emoji presentation selectors U+FE0E/U+FE0F; the model counts every character.
- SignUpValidation.ValidateRegisterInput: the source overwrites the body's four fields in place; the model returns the normalised body instead. The sign-up handler copies its fields before calling the validator, so this difference is not observable there.
- Body fields that are not strings: the model takes every body field as a string or missing. Mongoose casts numbers and booleans to strings for lookups and for storage. So an update with `{"username": 12345}` looks up and stores "12345", and the model covers it by its string form. This does not hold for the truthiness tests: the number `0` and `false` are falsy, unlike "0" and "false". Those two values, objects and arrays (which fail the cast), non-string values in the validator's four fields (where `Validator.isLength` throws, giving a server error), and non-string `oldPassword`/`newPassword` at the two password resets are not modelled. Those password fields are never cast: they go straight to bcryptjs, which refuses anything but a string, so the source answers with a server error and leaves the store unchanged. The model reads them by their string form and resets the password instead.
- A missing value in a `findOne` filter (`{ username: undefined }`) is taken as matching no stored user. This is what the driver's null filter does when every stored user has the field. Mongoose's own handling of undefined filter keys is not modelled.
- `trainerType` sent at sign-up is not in the user schema, which drops it, so the stored user has no such field.
- register-appointment validates none of `date`, `time` and `trainerId` and has no error handler; the model takes them as given values, with the date as an integer instant.
- `GET /user-data` and `GET /protected` only read and return data, so they are not modelled.
- The CORS handler's `console.log` of the origin is not modelled.
- Documents are identified by their position in their collection: no shown handler deletes one.

=== FILE: admin.dfy ===
/** The administrator's password reset of routes/admin.js: look a user up
    by username or email and store the hash of a new password. The token
    and admin-role checks in front of it are not part of this model. */
module Admin {
  import opened Common
  import opened Bcrypt
  import opened Users

  /** The `$or` filter: the username or the email equals the request's
      value; a missing value is a null filter value that no stored user
      matches. */
  predicate MatchesEither(u: User, username: Option<string>, email: Option<string>)
  {
    (username.Some? && u.username == username.value) || (email.Some? && u.email == email.value)
  }

  /** `findOne({ $or: [{ username }, { email }] })`: the first user, in
      natural order, that matches either value. */
  function FindByUsernameOrEmail(users: seq<User>, username: Option<string>, email: Option<string>)
    : (r: Option<nat>)
    ensures r.Some? ==> r.value < |users| && MatchesEither(users[r.value], username, email)
    ensures r.Some? ==> forall j :: 0 <= j < r.value ==> !MatchesEither(users[j], username, email)
    ensures r.None? <==> forall j :: 0 <= j < |users| ==> !MatchesEither(users[j], username, email)
  {
    FindOne(users, (u: User) => MatchesEither(u, username, email))
  }

  /** `POST /reset-user-password`. `salt` is the salt bcrypt draws; a
      missing new password makes bcrypt throw, which the handler answers
      with a server error. */
  method ResetUserPassword(store: UserStore, username: Option<string>, email: Option<string>,
                           newPassword: Option<string>, salt: nat)
    returns (r: Reply)
    modifies store
    ensures !Truthy(username) && !Truthy(email) ==>
      r == IdentifierMissing && store.users == old(store.users)
    ensures (Truthy(username) || Truthy(email)) ==>
      match FindByUsernameOrEmail(old(store.users), username, email)
      case None => r == UserNotFound && store.users == old(store.users)
      case Some(i) =>
        && (newPassword.None? ==> r == InternalServerError && store.users == old(store.users))
        && (newPassword.Some? ==>
              r == PasswordReset
              && store.users == old(store.users)[i := old(store.users)[i].(password := Hash(newPassword.value, salt))])
    ensures r == PasswordReset ==>
      exists i :: 0 <= i < |store.users| && MatchesEither(store.users[i], username, email)
        && Compare(newPassword.value, store.users[i].password)
    ensures UniqueUsernames(old(store.users)) ==> UniqueUsernames(store.users)
  {
    if !Truthy(username) && !Truthy(email) {
      return IdentifierMissing;
    }
    var found := FindByUsernameOrEmail(store.users, username, email);
    if found.None? {
      return UserNotFound;
    }
    var i := found.value;
    var user := store.users[i];
    if newPassword.None? {
      return InternalServerError;
    }
    var hashedNewPassword := Hash(newPassword.value, salt);
    store.users := store.users[i := user.(password := hashedNewPassword)];
    r := PasswordReset;
    assert MatchesEither(store.users[i], username, email);
    if UniqueUsernames(old(store.users)) {
      ReplaceKeepsUniqueUsernames(old(store.users), i, store.users[i]);
    }
  }
}

=== FILE: appointments.dfy ===
/** The appointment ledger and the register-appointment handler
    (routes/user.js): at most one Confirmed appointment per trainer, date
    and hour. The record shape is that of models/Appointment.js and the
    statuses those of constants.js. */
module Appointments {
  import opened Common

  /** A MongoDB document id (ObjectId) of a user or trainer. */
  type ObjectId = nat

  /** A stored `Date`: an instant, compared by equality. */
  type Instant = int

  datatype Status = Confirmed | Cancelled

  datatype Appointment = Appointment(
    trainerId: ObjectId, userId: ObjectId, date: Instant, time: nat, status: Status)

  /** What the booking rule keys on: the trainer, the date and the hour. */
  datatype Slot = Slot(trainerId: ObjectId, date: Instant, time: nat)

  /** The handler's answer: 409 "Appointment already taken", or the saved record. */
  datatype Registration = Conflict | Registered(appointment: Appointment)

  function SlotOf(a: Appointment): Slot
  {
    Slot(a.trainerId, a.date, a.time)
  }

  /** The filter of the handler's `findOne`: a Confirmed record for the slot. */
  predicate Holds(a: Appointment, slot: Slot)
  {
    a.status == Confirmed && SlotOf(a) == slot
  }

  /** Some Confirmed record already holds the slot. */
  predicate Taken(ledger: seq<Appointment>, slot: Slot)
  {
    exists i :: 0 <= i < |ledger| && Holds(ledger[i], slot)
  }

  /** The booking rule: no two Confirmed records share a slot. */
  ghost predicate NoDoubleBooking(ledger: seq<Appointment>)
  {
    forall i, j :: 0 <= i < j < |ledger| && ledger[i].status == Confirmed && ledger[j].status == Confirmed
      ==> SlotOf(ledger[i]) != SlotOf(ledger[j])
  }

  /** The Confirmed record a successful registration saves. */
  function NewAppointment(userId: ObjectId, slot: Slot): Appointment
  {
    Appointment(slot.trainerId, userId, slot.date, slot.time, Confirmed)
  }

  /** The ledger after one registration attempt, run on its own. */
  function AfterRegistration(ledger: seq<Appointment>, userId: ObjectId, slot: Slot): seq<Appointment>
  {
    if Taken(ledger, slot) then ledger else ledger + [NewAppointment(userId, slot)]
  }

  /** One registration request: the caller (from the token) and the slot
      (from the body). */
  datatype Request = Request(userId: ObjectId, slot: Slot)

  /** The ledger after the requests have been handled one after another. */
  function Replay(ledger: seq<Appointment>, requests: seq<Request>): seq<Appointment>
    decreases |requests|
  {
    if requests == [] then ledger
    else Replay(AfterRegistration(ledger, requests[0].userId, requests[0].slot), requests[1..])
  }

  /** The number of Confirmed records holding a slot. */
  function ConfirmedCount(ledger: seq<Appointment>, slot: Slot): nat
  {
    if ledger == [] then 0
    else ConfirmedCount(ledger[..|ledger| - 1], slot) + (if Holds(ledger[|ledger| - 1], slot) then 1 else 0)
  }

  /** The appointments collection. */
  class Ledger {
    var appointments: seq<Appointment>

    constructor ()
      ensures appointments == []
    {
      appointments := [];
    }

    /** `POST /register-appointment`, with the caller's id from the token. */
    method RegisterAppointment(trainerId: ObjectId, date: Instant, time: nat, userId: ObjectId)
      returns (r: Registration)
      modifies this
      ensures r == Conflict <==> Taken(old(appointments), Slot(trainerId, date, time))
      ensures r == Conflict ==> appointments == old(appointments)
      ensures r.Registered? ==>
        && r.appointment == Appointment(trainerId, userId, date, time, Confirmed)
        && appointments == old(appointments) + [r.appointment]
      ensures appointments == AfterRegistration(old(appointments), userId, Slot(trainerId, date, time))
      ensures NoDoubleBooking(old(appointments)) ==> NoDoubleBooking(appointments)
    {
      var slot := Slot(trainerId, date, time);
      var existing := FindOne(appointments, a => Holds(a, slot));
      if existing.Some? {
        return Conflict;
      }
      var created := Appointment(trainerId, userId, date, time, Confirmed);
      appointments := appointments + [created];
      r := Registered(created);
      if NoDoubleBooking(old(appointments)) {
        RegistrationKeepsNoDoubleBooking(old(appointments), userId, slot);
      }
    }
  }

  /** One registration, run on its own, keeps the booking rule. */
  lemma RegistrationKeepsNoDoubleBooking(ledger: seq<Appointment>, userId: ObjectId, slot: Slot)
    requires NoDoubleBooking(ledger)
    ensures NoDoubleBooking(AfterRegistration(ledger, userId, slot))
  {
  }

  /** Registrations handled one after another keep the booking rule. */
  lemma {:induction false} ReplayKeepsNoDoubleBooking(ledger: seq<Appointment>, requests: seq<Request>)
    requires NoDoubleBooking(ledger)
    ensures NoDoubleBooking(Replay(ledger, requests))
    decreases |requests|
  {
    if requests != [] {
      RegistrationKeepsNoDoubleBooking(ledger, requests[0].userId, requests[0].slot);
      ReplayKeepsNoDoubleBooking(
        AfterRegistration(ledger, requests[0].userId, requests[0].slot), requests[1..]);
    }
  }

  /** A slot no Confirmed record holds has a count of zero. */
  lemma {:induction false} FreeSlotCountsZero(ledger: seq<Appointment>, slot: Slot)
    ensures ConfirmedCount(ledger, slot) == 0 <==> !Taken(ledger, slot)
  {
    if ledger != [] {
      var prefix := ledger[..|ledger| - 1];
      FreeSlotCountsZero(prefix, slot);
      if Taken(prefix, slot) {
        var i :| 0 <= i < |prefix| && Holds(prefix[i], slot);
        assert Holds(ledger[i], slot);
      }
      if Taken(ledger, slot) && !Holds(ledger[|ledger| - 1], slot) {
        var i :| 0 <= i < |ledger| && Holds(ledger[i], slot);
        assert Holds(prefix[i], slot);
      }
    }
  }

  /** Under the booking rule, a slot is held by at most one Confirmed record. */
  lemma {:induction false} AtMostOneConfirmedPerSlot(ledger: seq<Appointment>, slot: Slot)
    requires NoDoubleBooking(ledger)
    ensures ConfirmedCount(ledger, slot) <= 1
  {
    if ledger != [] {
      var prefix := ledger[..|ledger| - 1];
      assert NoDoubleBooking(prefix) by {
        forall i, j | 0 <= i < j < |prefix| && prefix[i].status == Confirmed && prefix[j].status == Confirmed
          ensures SlotOf(prefix[i]) != SlotOf(prefix[j])
        {
          assert prefix[i] == ledger[i] && prefix[j] == ledger[j];
        }
      }
      AtMostOneConfirmedPerSlot(prefix, slot);
      if Holds(ledger[|ledger| - 1], slot) {
        FreeSlotCountsZero(prefix, slot);
      }
    }
  }

  /** Starting from an empty collection, any sequence of registrations
      leaves every slot with at most one Confirmed record. */
  lemma SequentialRegistrationsNeverDoubleBook(requests: seq<Request>, slot: Slot)
    ensures ConfirmedCount(Replay([], requests), slot) <= 1
  {
    ReplayKeepsNoDoubleBooking([], requests);
    AtMostOneConfirmedPerSlot(Replay([], requests), slot);
  }

  /** Only Confirmed records block: a Cancelled record for the slot leaves
      the outcome of a registration as it was. */
  lemma CancelledRecordDoesNotBlock(ledger: seq<Appointment>, cancelled: Appointment, slot: Slot)
    requires cancelled.status == Cancelled
    ensures Taken(ledger + [cancelled], slot) <==> Taken(ledger, slot)
  {
    if Taken(ledger + [cancelled], slot) {
      var i :| 0 <= i < |ledger + [cancelled]| && Holds((ledger + [cancelled])[i], slot);
      assert i < |ledger| && Holds(ledger[i], slot);
    }
    if Taken(ledger, slot) {
      var i :| 0 <= i < |ledger| && Holds(ledger[i], slot);
      assert Holds((ledger + [cancelled])[i], slot);
    }
  }

  /** Once a registration for a slot has been handled, every later request
      for that slot conflicts, whoever makes it. */
  lemma SecondRegistrationConflicts(ledger: seq<Appointment>, first: ObjectId, slot: Slot)
    ensures Taken(AfterRegistration(ledger, first, slot), slot)
    ensures ConfirmedCount(AfterRegistration(ledger, first, slot), slot) >= 1
  {
    var after := AfterRegistration(ledger, first, slot);
    if !Taken(ledger, slot) {
      assert Holds(after[|ledger|], slot);
    }
    FreeSlotCountsZero(after, slot);
  }
}

=== FILE: bcrypt.dfy ===
/** The password hashing the handlers call (bcryptjs), as an abstract digest.
    The random salt bcrypt draws on every call is a parameter. A digest is
    never a plain string, so a stored password can only be a digest. */
module Bcrypt {

  /** A byte of a password's UTF-8 encoding. */
  type Byte = b: int | 0 <= b < 256

  /** Blowfish's key schedule fills eighteen 32-bit words, so bcrypt reads
      72 bytes of key. */
  const KeyBytes := 72

  /** The UTF-8 encoding of one character. */
  function Utf8(c: char): (bytes: seq<Byte>)
    ensures 1 <= |bytes| <= 4
  {
    var n := c as int;
    if n < 0x80 then [n]
    else if n < 0x800 then [0xC0 + n / 0x40, 0x80 + n % 0x40]
    else if n < 0x1_0000 then [0xE0 + n / 0x1000, 0x80 + (n / 0x40) % 0x40, 0x80 + n % 0x40]
    else [0xF0 + (n / 0x4_0000) % 8, 0x80 + (n / 0x1000) % 0x40, 0x80 + (n / 0x40) % 0x40, 0x80 + n % 0x40]
  }

  /** The UTF-8 encoding of a password. */
  function Encode(s: string): (bytes: seq<Byte>)
    ensures |bytes| >= |s|
  {
    if s == [] then [] else Utf8(s[0]) + Encode(s[1..])
  }

  /** The key the hash is computed from: the password's UTF-8 bytes and the
      terminating zero byte of the `$2a$`/`$2b$` variants, repeated
      cyclically over the 72 bytes the key schedule reads. Two passwords
      with the same key are indistinguishable to bcrypt. */
  function Key(s: string): (key: seq<Byte>)
    ensures |key| == KeyBytes
  {
    Cycle(Encode(s) + [0])
  }

  /** The first 72 bytes of the endless repetition of `bytes`. */
  function Cycle(bytes: seq<Byte>): (key: seq<Byte>)
    requires bytes != []
    ensures |key| == KeyBytes
  {
    seq(KeyBytes, i requires 0 <= i < KeyBytes => bytes[i % |bytes|])
  }

  /** A key source of more than 72 bytes is cut, not repeated. */
  lemma CycleOfLongBytes(bytes: seq<Byte>)
    requires |bytes| > KeyBytes
    ensures Cycle(bytes) == bytes[..KeyBytes]
  {
  }

  /** A stored digest: the salt it was drawn with and the key it protects.
      Collisions of the Blowfish-based hash itself between different keys
      are not modelled. */
  datatype Digest = Digest(salt: nat, key: seq<Byte>)

  /** `bcrypt.compare(candidate, digest)`. */
  predicate Compare(candidate: string, digest: Digest)
  {
    Key(candidate) == digest.key
  }

  /** `bcrypt.hash(password, rounds)` with the salt it draws: the password
      is accepted afterwards, and so is exactly every password with the
      same key. */
  function Hash(password: string, salt: nat): (d: Digest)
    ensures Compare(password, d)
    ensures forall other :: Compare(other, d) <==> Key(other) == Key(password)
  {
    Digest(salt, Key(password))
  }

  lemma {:induction false} EncodeAppend(s: string, t: string)
    ensures Encode(s + t) == Encode(s) + Encode(t)
  {
    if s == [] {
      assert s + t == t;
    } else {
      assert (s + t)[0] == s[0];
      assert (s + t)[1..] == s[1..] + t;
      EncodeAppend(s[1..], t);
    }
  }

  /** Only the first 72 bytes of a password count: once a password's
      encoding reaches 72 bytes, anything appended to it is accepted by the
      original password's digest. */
  lemma LongPasswordIgnoresSuffix(password: string, suffix: string, salt: nat)
    requires |Encode(password)| >= KeyBytes
    ensures Compare(password + suffix, Hash(password, salt))
  {
    EncodeAppend(password, suffix);
    var own := Encode(password) + [0];
    var whole := Encode(password) + (Encode(suffix) + [0]);
    assert Encode(password + suffix) + [0] == whole;
    CycleOfLongBytes(own);
    CycleOfLongBytes(whole);
    assert own[..KeyBytes] == whole[..KeyBytes] == Encode(password)[..KeyBytes];
  }

  /** Two passwords whose encodings both reach 72 bytes and agree on their
      first 72 bytes are interchangeable: each is accepted by a digest of
      the other. */
  lemma SameFirstBytesCompare(password: string, candidate: string, salt: nat)
    requires |Encode(password)| >= KeyBytes && |Encode(candidate)| >= KeyBytes
    requires Encode(password)[..KeyBytes] == Encode(candidate)[..KeyBytes]
    ensures Compare(candidate, Hash(password, salt))
  {
    var own := Encode(password) + [0];
    var other := Encode(candidate) + [0];
    CycleOfLongBytes(own);
    CycleOfLongBytes(other);
    assert own[..KeyBytes] == Encode(password)[..KeyBytes];
    assert other[..KeyBytes] == Encode(candidate)[..KeyBytes];
  }
}

=== FILE: common.dfy ===
/** Shared vocabulary: optional request fields, JavaScript truthiness of a
    string field, and the "first document that matches" lookup that every
    handler performs against a collection. */
module Common {

  /** A request-body field: None stands for a missing (undefined or null) field. */
  datatype Option<+T> = None | Some(value: T)

  /** JavaScript truthiness of an optional string field: present and non-empty. */
  predicate Truthy(v: Option<string>)
  {
    v.Some? && v.value != ""
  }

  /** `v || fallback` for a string field whose stored value is always a string. */
  function OrElse(v: Option<string>, fallback: string): string
  {
    if Truthy(v) then v.value else fallback
  }

  /** `findOne`: the position of the first document, in natural (insertion)
      order, that satisfies the filter, or None when no document does. */
  function FindOne<T>(docs: seq<T>, filter: T -> bool): (r: Option<nat>)
    ensures r.Some? ==> r.value < |docs| && filter(docs[r.value])
    ensures r.Some? ==> forall j :: 0 <= j < r.value ==> !filter(docs[j])
    ensures r.None? <==> forall j :: 0 <= j < |docs| ==> !filter(docs[j])
  {
    if |docs| == 0 then None
    else if filter(docs[0]) then Some(0)
    else match FindOne(docs[1..], filter)
      case None => None
      case Some(i) => Some(i + 1)
  }
}

=== FILE: cors.dfy ===
/** The CORS origin decision (config/corsOptions.js) over the origin list of
    config/allowedOrigins.js. The environment variable NODE_ENV is an input. */
module Cors {
  import opened Common

  /** The callback outcome: allowed, or the error the callback receives. */
  datatype Decision = Allow | Reject(message: string)

  const NotAllowedMessage := "Not allowed by CORS"

  /** The five origins the list is declared with. */
  const DeclaredOrigins: seq<string> := [
    "capacitor://localhost",
    "http://localhost:3000",
    "http://192.236.178.57:5000",
    "http://localhost",
    "http://localhost:80"
  ]

  /** The list as the module exports it: when NODE_ENV is set (truthy), one
      more copy of the local development origin is pushed onto its end. */
  function AllowedOrigins(nodeEnv: Option<string>): (origins: seq<string>)
    ensures DeclaredOrigins <= origins
    ensures |origins| == |DeclaredOrigins| + (if Truthy(nodeEnv) then 1 else 0)
    ensures forall o :: o in origins <==> o in DeclaredOrigins
  {
    if Truthy(nodeEnv) then DeclaredOrigins + ["http://localhost:3000"] else DeclaredOrigins
  }

  /** `allowedOrigins.indexOf(origin) !== -1`: strict equality, so a missing
      origin is never found. */
  predicate Listed(origin: Option<string>, origins: seq<string>)
  {
    origin.Some? && origin.value in origins
  }

  /** The `origin` option: listed origins first, then a missing or empty
      origin while NODE_ENV is exactly "development", otherwise the error. */
  function DecideOrigin(origin: Option<string>, nodeEnv: Option<string>): (d: Decision)
    ensures d == Allow <==>
      (origin.Some? && origin.value in DeclaredOrigins)
      || (!Truthy(origin) && nodeEnv == Some("development"))
    ensures d != Allow ==> d == Reject(NotAllowedMessage)
  {
    if Listed(origin, AllowedOrigins(nodeEnv)) then Allow
    else if nodeEnv == Some("development") && !Truthy(origin) then Allow
    else Reject(NotAllowedMessage)
  }

  /** A listed origin is accepted whatever the environment. */
  lemma ListedOriginAllowedInEveryEnvironment(origin: string, nodeEnv: Option<string>)
    requires origin in DeclaredOrigins
    ensures DecideOrigin(Some(origin), nodeEnv) == Allow
  {
  }

  /** A request without an origin (or with an empty one) is accepted exactly
      in the development environment. */
  lemma MissingOriginOnlyInDevelopment(origin: Option<string>, nodeEnv: Option<string>)
    requires !Truthy(origin)
    ensures DecideOrigin(origin, nodeEnv) == Allow <==> nodeEnv == Some("development")
  {
  }

  /** Outside development, the decision is list membership alone. */
  lemma OutsideDevelopmentOnlyListed(origin: Option<string>, nodeEnv: Option<string>)
    requires nodeEnv != Some("development")
    ensures DecideOrigin(origin, nodeEnv) == Allow <==> Listed(origin, DeclaredOrigins)
  {
  }
}

=== FILE: users.dfy ===
/** The users collection and the account handlers of routes/user.js:
    sign-up, password reset and profile update. A user's id is its position
    in the collection (no shown handler deletes a user); passwords are kept
    only as bcrypt digests. */
module Users {
  import opened Common
  import opened Bcrypt
  import opened SignUpValidation

  /** A user's document id (ObjectId): its position in the collection. */
  type UserId = nat

  /** The roles of constants.js. */
  datatype Role = TrainerRole | CustomerRole | AdminRole

  /** A stored user document, with the fields of models/User.js. */
  datatype User = User(
    username: string, email: string, password: Digest,
    name: string, defaultLocation: Option<string>, role: Role)

  /** The body of `PUT /update-user-info`. */
  datatype ProfileChanges = ProfileChanges(
    username: Option<string>, email: Option<string>,
    defaultLocation: Option<string>, name: Option<string>)

  /** The handlers' answers; the HTTP status of each is in its comment. */
  datatype Reply =
    | ValidationFailed(errors: map<Field, string>)  // 400, the errors object
    | EmailAlreadyExists                            // 400 "User already exists with this email"
    | UsernameAlreadyExists                         // 400 "User already exists with this username"
    | IdentifierMissing                             // 400 "Provide either username or email"
    | SignedUp(id: UserId)                          // 201
    | UserNotFound                                  // 404
    | InvalidOldPassword                            // 401
    | PasswordReset                                 // 200
    | InformationUpdated                            // 200
    | InternalServerError                           // 500, an exception caught by the handler

  predicate EmailInUse(users: seq<User>, email: string)
  {
    exists i :: 0 <= i < |users| && users[i].email == email
  }

  predicate UsernameInUse(users: seq<User>, username: string)
  {
    exists i :: 0 <= i < |users| && users[i].username == username
  }

  /** `findOne({ username })` with the username of a request body: a missing
      username is a null filter value, which no stored user (all of whose
      usernames are strings) matches. */
  predicate RequestedUsernameTaken(users: seq<User>, username: Option<string>)
  {
    username.Some? && UsernameInUse(users, username.value)
  }

  /** No two users share a username. */
  ghost predicate UniqueUsernames(users: seq<User>)
  {
    forall i, j :: 0 <= i < j < |users| ==> users[i].username != users[j].username
  }

  /** No two users share an email address. */
  ghost predicate UniqueEmails(users: seq<User>)
  {
    forall i, j :: 0 <= i < j < |users| ==> users[i].email != users[j].email
  }

  /** The profile merge of update-user-info: each of username, email,
      defaultLocation and name takes the request's value when it is truthy
      and keeps the stored one otherwise; password and role are untouched. */
  function Merged(user: User, changes: ProfileChanges): User
  {
    user.(username := OrElse(changes.username, user.username),
          email := OrElse(changes.email, user.email),
          defaultLocation := if Truthy(changes.defaultLocation) then changes.defaultLocation else user.defaultLocation,
          name := OrElse(changes.name, user.name))
  }

  /** Sending the same changes twice changes nothing the second time. */
  lemma MergeIdempotent(user: User, changes: ProfileChanges)
    ensures Merged(Merged(user, changes), changes) == Merged(user, changes)
  {
  }

  /** An update leaves the record as it was exactly when every truthy field
      of the request already holds the stored value. */
  lemma MergeKeepsRecordIff(user: User, changes: ProfileChanges)
    ensures Merged(user, changes) == user <==>
      && (Truthy(changes.username) ==> changes.username.value == user.username)
      && (Truthy(changes.email) ==> changes.email.value == user.email)
      && (Truthy(changes.defaultLocation) ==> changes.defaultLocation == user.defaultLocation)
      && (Truthy(changes.name) ==> changes.name.value == user.name)
  {
  }

  /** Replacing one user by a user whose username no other user has keeps
      usernames unique. */
  lemma ReplaceKeepsUniqueUsernames(users: seq<User>, k: nat, updated: User)
    requires k < |users| && UniqueUsernames(users)
    requires updated.username == users[k].username || !UsernameInUse(users, updated.username)
    ensures UniqueUsernames(users[k := updated])
  {
  }

  /** As written, update-user-info checks the username but not the email:
      a user can take over another user's address, so email uniqueness,
      which sign-up enforces, does not survive a profile update. */
  lemma ProfileUpdateCanShareEmail(first: User, second: User)
    requires first.email != second.email && first.email != ""
    requires first.username != second.username
    ensures var users := [first, second];
      var changes := ProfileChanges(None, Some(first.email), None, None);
      && UniqueEmails(users)
      && !RequestedUsernameTaken(users, changes.username)
      && !UniqueEmails(users[1 := Merged(users[1], changes)])
  {
    var users := [first, second];
    var after := users[1 := Merged(users[1], ProfileChanges(None, Some(first.email), None, None))];
    assert after[0].email == after[1].email;
  }

  /** The users collection. */
  class UserStore {
    var users: seq<User>

    constructor ()
      ensures users == []
    {
      users := [];
    }

    /** `POST /signup`: validation, then the email check, then the username
        check, then the insert of a customer whose password is stored hashed.
        `isEmail` and `isBlank` are the validator's string tests; `salt` is
        the salt bcrypt draws. */
    method SignUp(data: SignUpInput, isEmail: string -> bool, isBlank: string -> bool, salt: nat)
      returns (r: Reply)
      modifies this
      ensures var form := Normalise(data, isBlank);
        && (!Acceptable(form, isEmail) ==>
              r.ValidationFailed? && r.errors != map[] && ReportsErrors(r.errors, form, isEmail)
              && users == old(users))
        && (Acceptable(form, isEmail) && EmailInUse(old(users), form.email) ==>
              r == EmailAlreadyExists && users == old(users))
        && (Acceptable(form, isEmail) && !EmailInUse(old(users), form.email)
            && UsernameInUse(old(users), form.username) ==>
              r == UsernameAlreadyExists && users == old(users))
        && (Acceptable(form, isEmail) && !EmailInUse(old(users), form.email)
            && !UsernameInUse(old(users), form.username) ==>
              r == SignedUp(|old(users)|)
              && users == old(users) + [User(form.username, form.email, Hash(form.password, salt),
                                             form.name, data.defaultLocation, CustomerRole)])
      ensures r.SignedUp? ==>
        (r.id < |users| && users[r.id].role == CustomerRole
         && Compare(Normalise(data, isBlank).password, users[r.id].password))
      ensures UniqueUsernames(old(users)) ==> UniqueUsernames(users)
      ensures UniqueEmails(old(users)) ==> UniqueEmails(users)
    {
      var form, errors, isValid := ValidateRegisterInput(data, isEmail, isBlank);
      if !isValid {
        return ValidationFailed(errors);
      }
      AcceptedFormBounds(data, isEmail, isBlank);
      var username, email, password, name := data.username.value, data.email.value, data.password.value, data.name.value;

      var existingEmail := FindOne(users, (u: User) => u.email == email);
      if existingEmail.Some? {
        return EmailAlreadyExists;
      }
      var existingUser := FindOne(users, (u: User) => u.username == username);
      if existingUser.Some? {
        return UsernameAlreadyExists;
      }

      var hashedPassword := Hash(password, salt);
      var newUser := User(username, email, hashedPassword, name, data.defaultLocation, CustomerRole);
      users := users + [newUser];
      r := SignedUp(|users| - 1);
    }

    /** `POST /reset-password` for the caller identified by the token:
        the old password must match before the new one is hashed and stored.
        A missing password makes bcrypt throw, which the handler answers
        with a server error. */
    method ResetPassword(caller: UserId, oldPassword: Option<string>, newPassword: Option<string>, salt: nat)
      returns (r: Reply)
      modifies this
      ensures caller >= |old(users)| ==> r == UserNotFound && users == old(users)
      ensures caller < |old(users)| ==>
        var user := old(users)[caller];
        && (oldPassword.None? ==> r == InternalServerError && users == old(users))
        && (oldPassword.Some? && !Compare(oldPassword.value, user.password) ==>
              r == InvalidOldPassword && users == old(users))
        && (oldPassword.Some? && Compare(oldPassword.value, user.password) && newPassword.None? ==>
              r == InternalServerError && users == old(users))
        && (oldPassword.Some? && Compare(oldPassword.value, user.password) && newPassword.Some? ==>
              r == PasswordReset
              && users == old(users)[caller := user.(password := Hash(newPassword.value, salt))])
      ensures r == PasswordReset ==>
        newPassword.Some? && caller < |users| && Compare(newPassword.value, users[caller].password)
      ensures UniqueUsernames(old(users)) ==> UniqueUsernames(users)
    {
      if caller >= |users| {
        return UserNotFound;
      }
      var user := users[caller];
      if oldPassword.None? {
        return InternalServerError;
      }
      if !Compare(oldPassword.value, user.password) {
        return InvalidOldPassword;
      }
      if newPassword.None? {
        return InternalServerError;
      }
      var hashedNewPassword := Hash(newPassword.value, salt);
      users := users[caller := user.(password := hashedNewPassword)];
      r := PasswordReset;
      if UniqueUsernames(old(users)) {
        ReplaceKeepsUniqueUsernames(old(users), caller, users[caller]);
      }
    }

    /** `PUT /update-user-info` for the caller identified by the token. The
        username check runs against every user, the caller included. */
    method UpdateUserInfo(caller: UserId, changes: ProfileChanges) returns (r: Reply)
      modifies this
      ensures caller >= |old(users)| ==> r == UserNotFound && users == old(users)
      ensures caller < |old(users)| && RequestedUsernameTaken(old(users), changes.username) ==>
        r == UsernameAlreadyExists && users == old(users)
      ensures caller < |old(users)| && !RequestedUsernameTaken(old(users), changes.username) ==>
        r == InformationUpdated && users == old(users)[caller := Merged(old(users)[caller], changes)]
      ensures UniqueUsernames(old(users)) ==> UniqueUsernames(users)
    {
      if caller >= |users| {
        return UserNotFound;
      }
      var user := users[caller];
      var existingUser := FindOne(users, (u: User) => changes.username.Some? && u.username == changes.username.value);
      if existingUser.Some? {
        return UsernameAlreadyExists;
      }
      var updated := Merged(user, changes);
      users := users[caller := updated];
      r := InformationUpdated;
      if UniqueUsernames(old(users)) {
        ReplaceKeepsUniqueUsernames(old(users), caller, updated);
      }
    }
  }
}

=== FILE: validate_signup.dfy ===
/** The sign-up validator (validators/validateSignUp.js): it normalises the
    four required fields of the request body, then records at most one
    message per field, a later "required" message overwriting an earlier
    length or format message. */
module SignUpValidation {
  import opened Common

  /** The four validated fields, the keys of the errors object. */
  datatype Field = Name | Username | Email | Password

  /** The sign-up request body as received; the last two fields are not
      validated. */
  datatype SignUpInput = SignUpInput(
    username: Option<string>, name: Option<string>,
    email: Option<string>, password: Option<string>,
    defaultLocation: Option<string>, trainerType: Option<string>)

  /** The request body after normalisation: every validated field is a string. */
  datatype SignUpForm = SignUpForm(username: string, name: string, email: string, password: string)

  const NameLengthMessage := "Name must be between 2 and 30 characters"
  const NameRequiredMessage := "Name field is required"
  const UsernameLengthMessage := "Username must be between 3 and 30 characters"
  const UsernameRequiredMessage := "Username field is required"
  const InvalidEmailMessage := "Invalid Email"
  const EmailRequiredMessage := "Email field is required"
  const PasswordLengthMessage := "Password must be between 6 and 30 characters"
  const PasswordRequiredMessage := "Password field is required"

  /** `!isEmpty(v) ? v : ''`, where the `is-empty` helper holds of a missing
      field and, on a string, is the test `isBlank`. */
  function NormaliseField(v: Option<string>, isBlank: string -> bool): string
  {
    if v.Some? && !isBlank(v.value) then v.value else ""
  }

  function Normalise(data: SignUpInput, isBlank: string -> bool): SignUpForm
  {
    SignUpForm(NormaliseField(data.username, isBlank), NormaliseField(data.name, isBlank),
               NormaliseField(data.email, isBlank), NormaliseField(data.password, isBlank))
  }

  /** `Validator.isLength(s, {min, max})`, counting characters. */
  predicate LengthWithin(s: string, min: nat, max: nat)
  {
    min <= |s| <= max
  }

  function FieldValue(form: SignUpForm, f: Field): string
  {
    match f
    case Name => form.name
    case Username => form.username
    case Email => form.email
    case Password => form.password
  }

  /** The bound or format check of a field's value. */
  predicate PassesCheck(f: Field, value: string, isEmail: string -> bool)
  {
    match f
    case Name => LengthWithin(value, 2, 30)
    case Username => LengthWithin(value, 3, 30)
    case Email => isEmail(value)
    case Password => LengthWithin(value, 6, 30)
  }

  function CheckMessage(f: Field): string
  {
    match f
    case Name => NameLengthMessage
    case Username => UsernameLengthMessage
    case Email => InvalidEmailMessage
    case Password => PasswordLengthMessage
  }

  function RequiredMessage(f: Field): string
  {
    match f
    case Name => NameRequiredMessage
    case Username => UsernameRequiredMessage
    case Email => EmailRequiredMessage
    case Password => PasswordRequiredMessage
  }

  /** Reference definition of the message recorded for one field, read off
      the field's own value only: the "required" message for an empty value,
      otherwise the bound or format message when the value breaks it,
      otherwise nothing. */
  function FieldError(f: Field, value: string, isEmail: string -> bool): Option<string>
  {
    if value == "" then Some(RequiredMessage(f))
    else if PassesCheck(f, value, isEmail) then None
    else Some(CheckMessage(f))
  }

  /** The form passes validation when no field has a message. */
  predicate Acceptable(form: SignUpForm, isEmail: string -> bool)
  {
    forall f: Field :: FieldError(f, FieldValue(form, f), isEmail) == None
  }

  /** An errors object holds, for each field, exactly that field's
      reference message. */
  predicate ReportsErrors(errors: map<Field, string>, form: SignUpForm, isEmail: string -> bool)
  {
    forall f: Field ::
      && (f in errors <==> FieldError(f, FieldValue(form, f), isEmail).Some?)
      && (f in errors ==> errors[f] == FieldError(f, FieldValue(form, f), isEmail).value)
  }

  /** The errors object after the two checks of one field have run, in the
      source's order: the bound or format check, then the emptiness check. */
  function Recorded(errors: map<Field, string>, f: Field, value: string, isEmail: string -> bool): map<Field, string>
  {
    var checked := if !PassesCheck(f, value, isEmail) then errors[f := CheckMessage(f)] else errors;
    if value == "" then checked[f := RequiredMessage(f)] else checked
  }

  /** The errors object once all four fields have been checked, in the
      source's order. */
  function AllRecorded(form: SignUpForm, isEmail: string -> bool): map<Field, string>
  {
    var afterName := Recorded(map[], Name, form.name, isEmail);
    var afterUsername := Recorded(afterName, Username, form.username, isEmail);
    var afterEmail := Recorded(afterUsername, Email, form.email, isEmail);
    Recorded(afterEmail, Password, form.password, isEmail)
  }

  /** The two checks of one field touch that field's key only, and leave
      there the field's reference message when the key started out empty. */
  lemma RecordedAt(errors: map<Field, string>, f: Field, value: string, isEmail: string -> bool, g: Field)
    ensures var after := Recorded(errors, f, value, isEmail);
      && (g != f ==> (g in after <==> g in errors) && (g in errors ==> after[g] == errors[g]))
      && (g == f && f !in errors ==> (g in after <==> FieldError(f, value, isEmail).Some?))
      && (g == f && f !in errors && g in after ==> after[g] == FieldError(f, value, isEmail).value)
  {
  }

  /** The sequential checks agree with the per-field reference definition:
      a key is present exactly when its field has a message, with that
      message, and the object is empty exactly when the form is acceptable. */
  lemma ErrorsPerField(form: SignUpForm, isEmail: string -> bool)
    ensures ReportsErrors(AllRecorded(form, isEmail), form, isEmail)
    ensures AllRecorded(form, isEmail) == map[] <==> Acceptable(form, isEmail)
  {
    var afterName := Recorded(map[], Name, form.name, isEmail);
    var afterUsername := Recorded(afterName, Username, form.username, isEmail);
    var afterEmail := Recorded(afterUsername, Email, form.email, isEmail);
    var errors := Recorded(afterEmail, Password, form.password, isEmail);
    forall f: Field
      ensures f in errors <==> FieldError(f, FieldValue(form, f), isEmail).Some?
      ensures f in errors ==> errors[f] == FieldError(f, FieldValue(form, f), isEmail).value
    {
      RecordedAt(map[], Name, form.name, isEmail, f);
      RecordedAt(afterName, Username, form.username, isEmail, f);
      RecordedAt(afterUsername, Email, form.email, isEmail, f);
      RecordedAt(afterEmail, Password, form.password, isEmail, f);
    }
    if errors != map[] {
      var f :| f in errors;
      assert FieldError(f, FieldValue(form, f), isEmail).Some?;
    }
  }

  /** `validateRegisterInput(data)`: returns the normalised body (the source
      overwrites the body's fields in place), the errors object and `isValid`. */
  method ValidateRegisterInput(data: SignUpInput, isEmail: string -> bool, isBlank: string -> bool)
    returns (form: SignUpForm, errors: map<Field, string>, isValid: bool)
    ensures form == Normalise(data, isBlank)
    ensures errors == AllRecorded(form, isEmail)
    ensures ReportsErrors(errors, form, isEmail)
    ensures isValid <==> errors == map[]
    ensures isValid <==> Acceptable(form, isEmail)
  {
    form := Normalise(data, isBlank);
    errors := map[];

    if !LengthWithin(form.name, 2, 30) {
      errors := errors[Name := NameLengthMessage];
    }
    if form.name == "" {
      errors := errors[Name := NameRequiredMessage];
    }
    assert errors == Recorded(map[], Name, form.name, isEmail);
    ghost var afterName := errors;

    if !LengthWithin(form.username, 3, 30) {
      errors := errors[Username := UsernameLengthMessage];
    }
    if form.username == "" {
      errors := errors[Username := UsernameRequiredMessage];
    }
    assert errors == Recorded(afterName, Username, form.username, isEmail);
    ghost var afterUsername := errors;

    if !isEmail(form.email) {
      errors := errors[Email := InvalidEmailMessage];
    }
    if form.email == "" {
      errors := errors[Email := EmailRequiredMessage];
    }
    assert errors == Recorded(afterUsername, Email, form.email, isEmail);
    ghost var afterEmail := errors;

    if !LengthWithin(form.password, 6, 30) {
      errors := errors[Password := PasswordLengthMessage];
    }
    if form.password == "" {
      errors := errors[Password := PasswordRequiredMessage];
    }
    assert errors == Recorded(afterEmail, Password, form.password, isEmail);
    assert errors == AllRecorded(form, isEmail);
    ErrorsPerField(form, isEmail);

    isValid := errors == map[];
  }

  /** What a form that passes validation guarantees about its fields:
      every bound holds, and each field came from the body unchanged. */
  lemma AcceptedFormBounds(data: SignUpInput, isEmail: string -> bool, isBlank: string -> bool)
    requires Acceptable(Normalise(data, isBlank), isEmail)
    ensures var form := Normalise(data, isBlank);
      && 2 <= |form.name| <= 30 && 3 <= |form.username| <= 30
      && 6 <= |form.password| <= 30 && form.email != "" && isEmail(form.email)
    ensures data.username.Some? && data.username.value == Normalise(data, isBlank).username
    ensures data.name.Some? && data.name.value == Normalise(data, isBlank).name
    ensures data.email.Some? && data.email.value == Normalise(data, isBlank).email
    ensures data.password.Some? && data.password.value == Normalise(data, isBlank).password
  {
    var form := Normalise(data, isBlank);
    assert FieldError(Name, FieldValue(form, Name), isEmail) == None;
    assert FieldError(Username, FieldValue(form, Username), isEmail) == None;
    assert FieldError(Email, FieldValue(form, Email), isEmail) == None;
    assert FieldError(Password, FieldValue(form, Password), isEmail) == None;
  }

  /** A body field as received. */
  function RawField(data: SignUpInput, f: Field): Option<string>
  {
    match f
    case Name => data.name
    case Username => data.username
    case Email => data.email
    case Password => data.password
  }

  /** A body field that is missing, empty or blank is reported as required:
      after normalisation the errors object holds that field's own
      "required" message, whatever its length or format check recorded
      first, and the form is rejected. */
  lemma MissingFieldIsRequired(data: SignUpInput, f: Field, isEmail: string -> bool, isBlank: string -> bool)
    requires RawField(data, f).None? || RawField(data, f).value == "" || isBlank(RawField(data, f).value)
    ensures f in AllRecorded(Normalise(data, isBlank), isEmail)
    ensures AllRecorded(Normalise(data, isBlank), isEmail)[f] == RequiredMessage(f)
    ensures !Acceptable(Normalise(data, isBlank), isEmail)
  {
    var form := Normalise(data, isBlank);
    assert FieldValue(form, f) == "";
    ErrorsPerField(form, isEmail);
  }
}
